=== FILE: README.md ===
# Table of contents for an mdBook chapter

A Dafny model of the `TableOfContents` preprocessor in
`preprocess/src/toc.rs`. For each chapter it:

- scans the chapter's markdown events for headings;
- gives each heading an anchor slug, numbering repeated base slugs with a
  per-chapter counter;
- repairs skipped heading levels with a one-pass "last lower" fold;
- writes one indented list line per heading and wraps the parsed lines in
  a fixed HTML container;
- puts the serialised result in front of the chapter's content.

Modules, in pipeline order:

- `Events` (events.dfy): the parser events the preprocessor tells apart
  (heading start with its level, heading end, text, inline code, HTML,
  anything else). It also holds the heading records, and `Level`, a heading
  depth of at least 1.
- `Extract` (extract.dfy): heading extraction (`ExtractHeadings`, with
  `TakeHeading` for the `take_while` over one heading region). It also gives
  a reference reading of any stream as plain events, whole heading regions
  and a possibly unterminated last heading, and proves that extraction
  agrees with it.
- `Decimal` (decimal.dfy): the decimal text Rust writes for a count, with a
  reader that inverts it.
- `Slugs` (slugs.dfy): the per-chapter slug counter (`NextSlug`,
  `AssignSlugs`) and what it guarantees.
- `Levels` (levels.dfy): depth normalisation. It has the functional fold
  and the imperative loop with a mutable baseline, proved equal to each
  other, plus the baseline's behaviour position by position.
- `Render` (render.dfy): the outline lines, the container events, and a
  line reader that inverts the rendering.
- `Toc` (toc.dfy): `generate_toc` (heading collection, `build_toc`, and
  prepending to the content) and `supports_renderer`.
- `Wrappers` (wrappers.dfy) and `Sequences` (sequences.dfy): small shared
  helpers.

The foreign collaborators are function-valued parameters:

- `normalizeId` is mdBook's `normalize_id`;
- `parse` is `pulldown_cmark::Parser::new`, seen as a function from text
  to events;
- `cmark` is `pulldown_cmark_to_cmark::cmark`, returning `None` when it
  fails.

Points where the code's behaviour is easy to misread, all followed as
written:

- **Slug uniqueness.** The counter is keyed by base slug (toc.rs:66), so the
  code keeps slugs apart only among headings that share a base slug.
  Headings whose base slugs are `foo`, `foo`, `foo-1` get the slugs `foo`,
  `foo-1`, `foo-1` (`Slugs.CrossBaseCollision`).
- **The normalisation rule.** The comparison at toc.rs:23 is against
  `last_lower`, which the clamp branch (toc.rs:24) does not move. A
  heading below a clamped one is therefore measured from the older
  baseline: `[1, 3, 4]` becomes `[1, 2, 2]`, not `[1, 2, 3]`
  (`Levels.ExampleChildOfClamped`).
- **Separator before the content.** toc.rs:86 writes the serialised
  fragment, exactly one `"\n"`, then the old content. The result has a
  blank line between them exactly when the serialised fragment already
  ends with a newline, which depends on the serialiser.
- **Closing a heading.** The `take_while` at toc.rs:52 stops at the first
  heading end of any level. A heading start inside a region is skipped like
  any other event that is neither text nor code (toc.rs:53-61).

## Model

| member | source | states |
|---|---|---|
| Extract.TakeHeading | preprocess/src/toc.rs:52-62 | consuming a heading region never grows the stream that is left (so the scan terminates, without backtracking) |
| Extract.TakeHeadingSuffix | preprocess/src/toc.rs:52 | what is left after a heading region is a suffix of the stream: `take_while` consumes the events and the heading end, and never puts anything back |
| Extract.TakeHeadingRegion | preprocess/src/toc.rs:52-62 | on a region closed by a heading end, the heading text is the in-order concatenation of the text runs (verbatim) and the code runs (in backticks); the heading end is consumed; the rest of the stream is untouched |
| Extract.TakeHeadingUnterminated | preprocess/src/toc.rs:52-62 | a heading with no heading end takes its text from the whole rest of the stream and leaves nothing |
| Extract.ExtractSegments | preprocess/src/toc.rs:48-62 | for any stream made of plain events, whole heading regions and an optional unterminated last heading, extraction yields exactly one (level, text) record per region, in order, carrying the start event's level, plus one for the unterminated heading; plain events contribute nothing |
| Extract.SegmentsFlatten | preprocess/src/toc.rs:48-62 | every event stream splits into well-formed segments and a tail whose flattening is the stream again, so the characterisation covers all inputs |
| Extract.ExtractCharacterised | preprocess/src/toc.rs:48-74 | for every stream, the extracted headings are the headings of its regions plus its unterminated last heading, in document order |
| Extract.NoStartNoHeadings | preprocess/src/toc.rs:48-49 | a stream with no heading start yields an empty heading list |
| Extract.ExtractCount | preprocess/src/toc.rs:48-74 | extraction pushes exactly one heading record per heading region of the stream, plus one for an unterminated last heading |
| Events.InlineTextsAppend | preprocess/src/toc.rs:53-61 | folding two runs of region events gives the concatenation of their texts, in order |
| Slugs.Dedup | preprocess/src/toc.rs:68-70 | occurrence 0 of a base slug is the base itself; occurrence k > 0 is the base, a `-`, and a run of decimal digits that reads back as k |
| Decimal.NatToString | preprocess/src/toc.rs:69 | the count written after `-` is a non-empty run of decimal digits with no leading zero |
| Decimal.ParseNatToString | preprocess/src/toc.rs:69 | reading the written decimal count back gives the count |
| Decimal.NatToStringInjective | preprocess/src/toc.rs:69 | different counts are written differently |
| Slugs.DedupInjective | preprocess/src/toc.rs:68-70 | two occurrence numbers of one base slug give the same slug only if they are equal |
| Slugs.NextSlug | preprocess/src/toc.rs:64-72 | one heading's step: the slug is the base for a count of 0 and `base-<count>` otherwise; the count of that base goes up by one; other counts are unchanged; the base becomes a key |
| Slugs.AssignSlugs | preprocess/src/toc.rs:46-74 | a chapter gets one slug per heading, with a counter that starts empty |
| Slugs.CounterCountsOccurrences | preprocess/src/toc.rs:66-71 | after a chapter, the counter's keys are exactly the chapter's base slugs, and each count is that base slug's number of occurrences |
| Slugs.SlugIsOccurrenceNumber | preprocess/src/toc.rs:64-72 | the k-th occurrence (from 0) of a base slug gets the base itself when k = 0 and `base-k` otherwise |
| Slugs.SameBaseDistinctSlugs | preprocess/src/toc.rs:64-72 | two headings with the same base slug never get the same slug |
| Slugs.RepeatedBaseExample | preprocess/src/toc.rs:64-72 | base slugs `foo`, `foo`, `foo` get the slugs `foo`, `foo-1`, `foo-2` |
| Slugs.CrossBaseCollision | preprocess/src/toc.rs:66 | the counter is keyed by base slug only: base slugs `foo`, `foo`, `foo-1` get the slugs `foo`, `foo-1`, `foo-1` |
| Levels.NormalizeStep | preprocess/src/toc.rs:23-29 | one heading's level becomes min(level, baseline + 1); a clamped heading leaves the baseline where it was; a heading that passes through becomes the baseline; the new baseline is at most the output and at most one below it |
| Levels.NormalizeFrom | preprocess/src/toc.rs:22-31 | folding from any baseline keeps the length, never deepens a heading, keeps levels of at least 1 at least 1, puts the first heading at most one below the baseline, and never deepens by more than one step |
| Levels.Normalize | preprocess/src/toc.rs:17-31 | the normalised levels have the input's length; the first equals the first raw level; each lies between 1 and its raw level; none is more than one deeper than its predecessor |
| Levels.NormalizeOne | preprocess/src/toc.rs:23-29 | the closure's comparison of `last_lower + 1` with the level computes one step of the fold |
| Levels.NormalizeLevels | preprocess/src/toc.rs:17-31 | the loop with a mutable baseline, seeded from the first level (0 when there is none), computes exactly the functional fold |
| Levels.NormalizeFromAt | preprocess/src/toc.rs:22-31 | heading i is normalised by one step from the baseline that the headings before it leave |
| Levels.BaselineAfterSnoc | preprocess/src/toc.rs:22-31 | the baseline after one more heading is that heading's step applied to the baseline before it |
| Levels.BaselineStep | preprocess/src/toc.rs:23-28 | a clamped heading sits exactly one below the baseline and leaves it unchanged; a passed-through heading becomes the baseline; the baseline after a heading is at most its output and at most one below it |
| Levels.ShallowPassesThrough | preprocess/src/toc.rs:23-28 | a heading no deeper than the previous normalised heading keeps its raw level |
| Levels.NormalizeFixpoint | preprocess/src/toc.rs:17-31 | normalisation leaves a level sequence unchanged if and only if the sequence never deepens by more than one step |
| Levels.NormalizeIdempotent | preprocess/src/toc.rs:17-31 | normalising twice is the same as normalising once |
| Levels.ExampleSkip | preprocess/src/toc.rs:23-28 | `[1, 3, 2]` and `[1, 3, 3]` become `[1, 2, 2]` |
| Levels.ExampleDeepStart | preprocess/src/toc.rs:17-28 | `[2, 1, 1, 4]` becomes `[2, 1, 1, 2]`, and `[3, 1]` stays `[3, 1]` |
| Levels.ExampleChildOfClamped | preprocess/src/toc.rs:23-28 | because a clamp does not move the baseline, `[1, 3, 4]` becomes `[1, 2, 2]` |
| Render.Spaces | preprocess/src/toc.rs:34-35 | the padding is exactly the given number of space characters |
| Render.TocLine | preprocess/src/toc.rs:34-35 | a heading's line is `2*(level-1)` characters of padding plus the name, the slug and the 8 characters of `* [`, `](#`, `)` and the newline, and it ends with the newline; `Render.ParseTocLine` reads it back |
| Render.TocLines | preprocess/src/toc.rs:33-36 | the outline holds at least one full line per heading and is empty exactly when there are no headings; `Render.ParseTocLines` reads it back as the headings |
| Render.TocLinesAppend | preprocess/src/toc.rs:33-36 | the lines of two heading lists are the lines of the first followed by those of the second |
| Render.WriteLines | preprocess/src/toc.rs:33-36 | the loop appends exactly the headings' lines, in order, after `dest`; the old `dest` stays an unchanged prefix; no headings leave `dest` unchanged |
| Render.TocEvents | preprocess/src/toc.rs:38-40 | the fragment's events are the opening HTML literal, then the parse of the written lines, then `</div>\n`; the literals are present even when there are no lines |
| Render.LeadingSpacesOf | preprocess/src/toc.rs:34-35 | a line's indentation is exactly the padding written before the `*` |
| Render.LastHashOpensSlug | preprocess/src/toc.rs:35 | in `name](#slug` with no `#` in the slug, the last `#` is the one that opens the slug |
| Render.ParseLineParts | preprocess/src/toc.rs:34-35 | a line of `2*(level-1)` spaces, `* [name](#slug)` reads back as that level, name and slug |
| Render.ParseTocLine | preprocess/src/toc.rs:34-35 | every rendered line (without its newline) reads back as its heading, provided the slug has no `#` |
| Render.TocLineSplit | preprocess/src/toc.rs:35 | for a heading with no newline in its name or slug, a rendered line is one newline-free line followed by exactly one newline |
| Render.ParseTocLines | preprocess/src/toc.rs:33-36 | the written lines read back as the headings, one per line and in order, provided no name or slug holds a newline and no slug holds a `#` |
| Toc.ChapterHeaders | preprocess/src/toc.rs:46-76 | a chapter's header list has one entry per extracted heading, in order, each keeping the extracted level and text (its slug is stated by `Toc.ChapterHeaderAt`) |
| Toc.ChapterHeaderAt | preprocess/src/toc.rs:48-74 | heading i of a chapter keeps its extracted level and text, and its slug is its base slug numbered by the earlier headings sharing that base |
| Toc.ChapterSlugsDistinctPerBase | preprocess/src/toc.rs:64-72 | two headings of a chapter whose texts normalise to the same base slug get different slugs |
| Toc.AppendInline | preprocess/src/toc.rs:53-61 | the match arm appends text verbatim, code in backticks, and nothing for any other event |
| Toc.TakeHeadingText | preprocess/src/toc.rs:50-62 | the index-based inner loop builds the same heading text and stops at the same place as the functional `take_while` |
| Toc.NumberSlug | preprocess/src/toc.rs:64-72 | the counter block computes one step of the slug counter |
| Toc.CollectHeaders | preprocess/src/toc.rs:44-76 | the scan of `generate_toc` builds exactly the `(level, slug, name)` list of the chapter's extracted headings, with slugs from a counter that starts empty |
| Toc.NormalizeHeaders | preprocess/src/toc.rs:22-31 | normalisation changes only the levels: slugs, names and order are kept, and the levels are the normalised levels |
| Toc.BuildToc | preprocess/src/toc.rs:14-41 | `build_toc` appends the outline of the normalised headings to `dest`, keeping the old `dest` as a prefix and leaving it unchanged for no headings; its events are the container around the parse of the whole `dest` |
| Toc.TocTextRoundTrip | preprocess/src/toc.rs:14-74 | reading the written outline back gives every heading in order with its normalised level, its name and its assigned slug (no newline in names or slugs, no `#` in slugs) |
| Toc.TocLevelsWellNested | preprocess/src/toc.rs:17-35 | the outline's levels never deepen by more than one step, start at the first heading's level, and lie between 1 and each heading's declared level |
| Toc.ChapterTocEvents | preprocess/src/toc.rs:44-79 | the events handed to the serialiser open and close with the container literals, and between them is the parse of the outline of the chapter's headers |
| Toc.GenerateToc | preprocess/src/toc.rs:43-93 | the chapter content becomes the serialised fragment, then `"\n"`, then the old content, which stays an unchanged suffix; a serialiser failure aborts with the source's message |
| Toc.EmptyChapterToc | preprocess/src/toc.rs:38-82 | a chapter with no headings still gets the container, around the parse of an empty outline |
| Toc.SupportsRenderer | preprocess/src/toc.rs:111-113 | the preprocessor runs for the renderer named `html` and declines every other renderer |

## Left out

- Markdown parsing and serialisation (`pulldown_cmark::Parser`,
  `pulldown_cmark_to_cmark::cmark`) are foreign code. They are parameters:
  `parse` maps text to events and `cmark` returns text or a failure. What
  the serialiser makes of the fragment, and any round trip through the real
  parser, are not modelled. The line reader in `Render` reads the lines
  `build_toc` writes, not markdown in general.
- `mdbook::utils::normalize_id` is foreign code. It is a parameter: any
  deterministic function from heading text to base slug.
- Global slug uniqueness is not a property of the code, so nothing claims
  it (see `Slugs.CrossBaseCollision`).
- `run` and `for_each_mut` (toc.rs:100-109) traverse the book. That is host
  plumbing; each chapter is processed on its own, with its own counter, as
  `GenerateToc`.
- `name()` (toc.rs:96-98) is `todo!()` and panics, so there is nothing to
  model.
- The panic of `.expect("failed to regenerate markdown")` (toc.rs:82)
  unwinds out of `run` and stops the whole book; `GenerateToc` returns it
  as `Failure` for the one chapter, and the unwinding is not modelled.
- The `.unwrap()` calls on `write!`/`writeln!` into a `String` cannot
  fail, so they are not modelled.
- Parser events other than heading start and end, text, inline code and
  HTML are one `Other` kind. Their payloads never matter to the heading
  scan; the outline's own events come from `parse` as a whole.
- Heading levels are unbounded naturals of at least 1 (the `Level` type)
  instead of `u32`. The parser only produces levels 1 to 6, so the `u32`
  underflow of `level - 1` at level 0 and the overflow of `last_lower + 1`
  at `u32::MAX` are outside the model.
- Slugs.NextSlug: the counter is a `HashMap<String, i32>` (the `0` in
  `or_insert(0)` at toc.rs:66 defaults to `i32`), modelled with unbounded
  naturals; the `i32` overflow after 2^31 headings with one base slug is
  not modelled.
- Extract.ExtractHeadings: has no contract of its own. What it computes is
  stated by `Extract.ExtractCharacterised` and `Extract.ExtractSegments`.

=== FILE: decimal.dfy ===
/** Decimal rendering of natural numbers, as Rust's `{}` formatting writes a
    non-negative integer such as the slug counter's `i32`: the shortest run
    of ASCII digits, most significant first. */
module Decimal {

  predicate IsDigit(c: char) {
    '0' <= c <= '9'
  }

  predicate AllDigits(s: string) {
    forall i :: 0 <= i < |s| ==> IsDigit(s[i])
  }

  function DigitChar(d: nat): (c: char)
    requires d < 10
    ensures IsDigit(c)
    ensures c as int - '0' as int == d
  {
    "0123456789"[d]
  }

  function DigitValue(c: char): (d: nat)
    requires IsDigit(c)
    ensures d < 10
  {
    c as int - '0' as int
  }

  /** The decimal text of `n`: digits only, never empty, no leading zero. */
  function NatToString(n: nat): (s: string)
    ensures |s| >= 1
    ensures AllDigits(s)
    ensures s[0] == '0' ==> n == 0
  {
    if n < 10 then [DigitChar(n)] else NatToString(n / 10) + [DigitChar(n % 10)]
  }

  /** Reads a run of decimal digits back as a number; the reference inverse
      of `NatToString`. */
  function ParseDecimal(s: string): nat
    requires AllDigits(s)
  {
    if |s| == 0 then 0 else 10 * ParseDecimal(s[..|s| - 1]) + DigitValue(s[|s| - 1])
  }

  lemma {:induction false} ParseNatToString(n: nat)
    ensures ParseDecimal(NatToString(n)) == n
  {
    var s := NatToString(n);
    if n < 10 {
      assert s[..|s| - 1] == [];
    } else {
      ParseNatToString(n / 10);
      assert s[..|s| - 1] == NatToString(n / 10);
    }
  }

  /** Distinct numbers have distinct decimal texts. */
  lemma NatToStringInjective(j: nat, k: nat)
    requires NatToString(j) == NatToString(k)
    ensures j == k
  {
    ParseNatToString(j);
    ParseNatToString(k);
  }
}

=== FILE: events.dfy ===
/** The markdown event stream the chapter parser yields, reduced to the kinds
    the table of contents distinguishes, and the heading records built from it. */
module Events {

  /** A heading depth: the parser declares levels 1 to 6, never 0. */
  type Level = l: nat | 1 <= l witness 1

  /** One parser event. `StartHeading`/`EndHeading` bracket a heading region
      (`Event::Start(Tag::Heading(level))` / `Event::End(Tag::Heading(_))`);
      `Text` and `Code` carry inline content; `Html` is raw HTML, block or inline;
      every other event kind is `Other`. */
  datatype Event =
    | StartHeading(level: Level)
    | EndHeading
    | Text(text: string)
    | Code(code: string)
    | Html(html: string)
    | Other

  /** A heading as extraction finds it: declared depth and flattened text. */
  datatype RawHeading = RawHeading(level: Level, text: string)

  /** A heading as the outline renderer takes it: depth, anchor slug and the
      link text (the `(level, slug, name)` triple of the source). */
  datatype Header = Header(level: Level, slug: string, name: string)

  /** What one event inside a heading region adds to the heading text: text
      runs verbatim, inline code wrapped in backticks, nothing otherwise. */
  function InlineText(e: Event): string {
    match e
    case Text(t) => t
    case Code(c) => "`" + c + "`"
    case _ => ""
  }

  /** The heading text a run of region events folds into, in order. */
  function InlineTexts(evs: seq<Event>): string
  {
    if |evs| == 0 then "" else InlineText(evs[0]) + InlineTexts(evs[1..])
  }

  lemma {:induction false} InlineTextsAppend(a: seq<Event>, b: seq<Event>)
    ensures InlineTexts(a + b) == InlineTexts(a) + InlineTexts(b)
  {
    if |a| == 0 {
      assert a + b == b;
    } else {
      assert (a + b)[1..] == a[1..] + b;
      InlineTextsAppend(a[1..], b);
    }
  }

  predicate NoHeadingEnd(evs: seq<Event>) {
    forall i :: 0 <= i < |evs| ==> !evs[i].EndHeading?
  }

  predicate NoHeadingStart(evs: seq<Event>) {
    forall i :: 0 <= i < |evs| ==> !evs[i].StartHeading?
  }
}

=== FILE: extract.dfy ===
/** Heading extraction (`generate_toc`'s scan): every top-level heading-start
    event opens a region that runs to the next heading-end event, and the
    region's text and code runs are folded into the heading text. */
module Extract {
  import opened Events
  import opened Sequences

  /** Consumes the inside of one heading region, the way `take_while` does on
      the shared iterator: the events up to the first heading end are folded
      into text, the heading end itself is consumed too, and an unterminated
      region swallows the rest of the stream. Returns the text and what is
      left of the stream. */
  function TakeHeading(evs: seq<Event>): (res: (string, seq<Event>))
    ensures |res.1| <= |evs|
  {
    if |evs| == 0 then ("", [])
    else if evs[0].EndHeading? then ("", evs[1..])
    else
      var (t, rest) := TakeHeading(evs[1..]);
      (InlineText(evs[0]) + t, rest)
  }

  /** The `(level, text)` pair of every top-level heading, in stream order. */
  function ExtractHeadings(evs: seq<Event>): seq<RawHeading>
    decreases |evs|
  {
    if |evs| == 0 then []
    else match evs[0]
      case StartHeading(l) =>
        var (t, rest) := TakeHeading(evs[1..]);
        [RawHeading(l, t)] + ExtractHeadings(rest)
      case _ => ExtractHeadings(evs[1..])
  }

  // ---------------------------------------------------------------------
  // Reference reading of a stream: a sequence of segments, each a single
  // event outside any heading or a whole heading region.
  // ---------------------------------------------------------------------

  datatype Segment =
    | Plain(event: Event)
    | Region(level: Level, inner: seq<Event>)

  /** A plain segment is not a heading start; a region's inside holds no
      heading end (a heading start inside it is just another ignored event). */
  predicate ValidSegment(s: Segment) {
    match s
    case Plain(e) => !e.StartHeading?
    case Region(_, inner) => NoHeadingEnd(inner)
  }

  predicate ValidSegments(segs: seq<Segment>) {
    forall i :: 0 <= i < |segs| ==> ValidSegment(segs[i])
  }

  function SegmentEvents(s: Segment): seq<Event> {
    match s
    case Plain(e) => [e]
    case Region(l, inner) => [StartHeading(l)] + inner + [EndHeading]
  }

  function Flatten(segs: seq<Segment>): seq<Event> {
    if |segs| == 0 then [] else SegmentEvents(segs[0]) + Flatten(segs[1..])
  }

  /** The heading of every region segment, in order. */
  function RegionHeadings(segs: seq<Segment>): seq<RawHeading> {
    if |segs| == 0 then []
    else match segs[0]
      case Plain(_) => RegionHeadings(segs[1..])
      case Region(l, inner) => [RawHeading(l, InlineTexts(inner))] + RegionHeadings(segs[1..])
  }

  function CountRegions(segs: seq<Segment>): nat {
    if |segs| == 0 then 0 else (if segs[0].Region? then 1 else 0) + CountRegions(segs[1..])
  }

  /** An unterminated last heading: its level and the events after its start. */
  datatype Tail = Closed | Open(level: Level, rest: seq<Event>)

  predicate ValidTail(t: Tail) {
    t.Open? ==> NoHeadingEnd(t.rest)
  }

  function TailEvents(t: Tail): seq<Event> {
    match t
    case Closed => []
    case Open(l, rest) => [StartHeading(l)] + rest
  }

  function TailHeadings(t: Tail): seq<RawHeading> {
    match t
    case Closed => []
    case Open(l, rest) => [RawHeading(l, InlineTexts(rest))]
  }

  lemma {:induction false} TakeHeadingRegion(inner: seq<Event>, after: seq<Event>)
    requires NoHeadingEnd(inner)
    ensures TakeHeading(inner + [EndHeading] + after) == (InlineTexts(inner), after)
  {
    if |inner| == 0 {
      assert inner + [EndHeading] + after == [EndHeading] + after;
    } else {
      assert (inner + [EndHeading] + after)[1..] == inner[1..] + [EndHeading] + after;
      TakeHeadingRegion(inner[1..], after);
    }
  }

  lemma {:induction false} TakeHeadingUnterminated(rest: seq<Event>)
    requires NoHeadingEnd(rest)
    ensures TakeHeading(rest) == (InlineTexts(rest), [])
  {
    if |rest| > 0 {
      TakeHeadingUnterminated(rest[1..]);
    }
  }

  /** Extraction steps over one plain segment. */
  lemma ExtractPlain(e: Event, after: seq<Event>)
    requires !e.StartHeading?
    ensures ExtractHeadings([e] + after) == ExtractHeadings(after)
  {
    assert ([e] + after)[1..] == after;
  }

  /** Extraction reads one whole region as one heading. */
  lemma ExtractRegion(l: Level, inner: seq<Event>, after: seq<Event>)
    requires NoHeadingEnd(inner)
    ensures ExtractHeadings(SegmentEvents(Region(l, inner)) + after)
         == [RawHeading(l, InlineTexts(inner))] + ExtractHeadings(after)
  {
    var evs := SegmentEvents(Region(l, inner)) + after;
    assert evs[0] == StartHeading(l);
    assert evs[1..] == inner + [EndHeading] + after;
    TakeHeadingRegion(inner, after);
  }

  lemma ExtractTail(t: Tail)
    requires ValidTail(t)
    ensures ExtractHeadings(TailEvents(t)) == TailHeadings(t)
  {
    match t {
      case Closed =>
      case Open(l, rest) =>
        assert TailEvents(t)[1..] == rest;
        TakeHeadingUnterminated(rest);
    }
  }

  /** Extraction reads one segment in front of a stream as that segment's
      own headings followed by the stream's. */
  lemma ExtractSegment(s: Segment, after: seq<Event>)
    requires ValidSegment(s)
    ensures ExtractHeadings(SegmentEvents(s) + after) == RegionHeadings([s]) + ExtractHeadings(after)
  {
    assert [s][1..] == [];
    match s {
      case Plain(e) =>
        ExtractPlain(e, after);
      case Region(l, inner) =>
        ExtractRegion(l, inner, after);
    }
  }

  lemma RegionHeadingsCons(s: Segment, segs: seq<Segment>)
    ensures RegionHeadings([s] + segs) == RegionHeadings([s]) + RegionHeadings(segs)
  {
    assert ([s] + segs)[1..] == segs;
    assert [s][1..] == [];
  }

  /** One segment more in front keeps extraction and the reference reading
      in step. */
  lemma ExtractSegmentStep(s: Segment, segs: seq<Segment>, t: Tail)
    requires ValidSegment(s)
    requires ExtractHeadings(Flatten(segs) + TailEvents(t)) == RegionHeadings(segs) + TailHeadings(t)
    ensures ExtractHeadings(Flatten([s] + segs) + TailEvents(t)) == RegionHeadings([s] + segs) + TailHeadings(t)
  {
    var after := Flatten(segs) + TailEvents(t);
    calc {
      ExtractHeadings(Flatten([s] + segs) + TailEvents(t));
      == { FlattenCons(s, segs); AppendAssoc(SegmentEvents(s), Flatten(segs), TailEvents(t)); }
      ExtractHeadings(SegmentEvents(s) + after);
      == { ExtractSegment(s, after); }
      RegionHeadings([s]) + (RegionHeadings(segs) + TailHeadings(t));
      == { RegionHeadingsCons(s, segs); }
      RegionHeadings([s] + segs) + TailHeadings(t);
    }
  }

  /** Extraction reads a stream laid out as segments followed by a possibly
      unterminated heading exactly as the headings of its regions, followed by
      the unterminated heading if there is one. */
  lemma {:induction false} ExtractSegments(segs: seq<Segment>, t: Tail)
    requires ValidSegments(segs)
    requires ValidTail(t)
    ensures ExtractHeadings(Flatten(segs) + TailEvents(t)) == RegionHeadings(segs) + TailHeadings(t)
  {
    if |segs| == 0 {
      assert Flatten(segs) + TailEvents(t) == TailEvents(t);
      ExtractTail(t);
    } else {
      assert ValidSegments(segs[1..]) by {
        forall i | 0 <= i < |segs[1..]| ensures ValidSegment(segs[1..][i]) {
          assert segs[1..][i] == segs[i + 1];
        }
      }
      ExtractSegments(segs[1..], t);
      assert ValidSegment(segs[0]);
      ExtractSegmentStep(segs[0], segs[1..], t);
      assert [segs[0]] + segs[1..] == segs;
    }
  }

  /** Splits any stream into segments and a tail: the reference parse of a
      stream into heading regions. */
  function Segments(evs: seq<Event>): (seq<Segment>, Tail)
    decreases |evs|
  {
    if |evs| == 0 then ([], Closed)
    else match evs[0]
      case StartHeading(l) =>
        var k := EndIndex(evs[1..]);
        if k == |evs| - 1 then ([], Open(l, evs[1..]))
        else
          var rest := Segments(evs[k + 2..]);
          ([Region(l, evs[1..1 + k])] + rest.0, rest.1)
      case _ =>
        var rest := Segments(evs[1..]);
        ([Plain(evs[0])] + rest.0, rest.1)
  }

  predicate FlattensBack(evs: seq<Event>) {
    && ValidSegments(Segments(evs).0)
    && ValidTail(Segments(evs).1)
    && Flatten(Segments(evs).0) + TailEvents(Segments(evs).1) == evs
  }

  /** Every stream is the flattening of its segments and tail, and these are
      well formed: flattening is the inverse of `Segments`. */
  lemma {:induction false} SegmentsFlatten(evs: seq<Event>)
    ensures FlattensBack(evs)
    decreases |evs|
  {
    if |evs| == 0 {
    } else if evs[0].StartHeading? {
      var k := EndIndex(evs[1..]);
      if k < |evs| - 1 {
        var inner := evs[1..1 + k];
        var after := evs[k + 2..];
        assert NoHeadingEnd(inner) by {
          assert inner == evs[1..][..k];
        }
        SegmentsFlatten(after);
        SegmentsRegion(evs[0].level, inner, after);
        SplitAround(evs, k + 1);
        assert evs[k + 1] == evs[1..][k];
        assert evs == SegmentEvents(Region(evs[0].level, inner)) + after;
      } else {
        SegmentsOpen(evs);
      }
    } else {
      SegmentsFlatten(evs[1..]);
      SegmentsPlain(evs);
    }
  }

  lemma SegmentsOpen(evs: seq<Event>)
    requires |evs| > 0 && evs[0].StartHeading?
    requires EndIndex(evs[1..]) == |evs| - 1
    ensures FlattensBack(evs)
  {
    assert evs[1..][..|evs| - 1] == evs[1..];
    assert Segments(evs) == ([], Open(evs[0].level, evs[1..]));
    assert [StartHeading(evs[0].level)] + evs[1..] == evs;
  }

  lemma EndIndexRegion(inner: seq<Event>, after: seq<Event>)
    requires NoHeadingEnd(inner)
    ensures EndIndex(inner + [EndHeading] + after) == |inner|
  {
    if |inner| > 0 {
      assert (inner + [EndHeading] + after)[1..] == inner[1..] + [EndHeading] + after;
      EndIndexRegion(inner[1..], after);
    }
  }

  lemma SegmentsRegionParts(l: Level, inner: seq<Event>, after: seq<Event>)
    requires NoHeadingEnd(inner)
    ensures Segments(SegmentEvents(Region(l, inner)) + after)
         == ([Region(l, inner)] + Segments(after).0, Segments(after).1)
  {
    var evs := SegmentEvents(Region(l, inner)) + after;
    var k := |inner|;
    assert evs[1..] == inner + [EndHeading] + after;
    EndIndexRegion(inner, after);
    assert evs[1..1 + k] == inner;
    assert evs[k + 2..] == after;
  }

  lemma SegmentsRegion(l: Level, inner: seq<Event>, after: seq<Event>)
    requires NoHeadingEnd(inner)
    requires FlattensBack(after)
    ensures FlattensBack(SegmentEvents(Region(l, inner)) + after)
  {
    SegmentsRegionParts(l, inner, after);
    SegmentStep(Region(l, inner), Segments(after).0, Segments(after).1, after);
  }

  lemma SegmentsPlain(evs: seq<Event>)
    requires |evs| > 0 && !evs[0].StartHeading?
    requires FlattensBack(evs[1..])
    ensures FlattensBack(evs)
  {
    var rest := Segments(evs[1..]);
    assert Segments(evs) == ([Plain(evs[0])] + rest.0, rest.1);
    SegmentStep(Plain(evs[0]), rest.0, rest.1, evs[1..]);
    assert [evs[0]] + evs[1..] == evs;
  }

  lemma SegmentStep(s: Segment, segs: seq<Segment>, t: Tail, after: seq<Event>)
    requires ValidSegment(s) && ValidSegments(segs)
    requires Flatten(segs) + TailEvents(t) == after
    ensures ValidSegments([s] + segs)
    ensures Flatten([s] + segs) + TailEvents(t) == SegmentEvents(s) + after
  {
    ConsValid(s, segs);
    FlattenCons(s, segs);
    AppendAssoc(SegmentEvents(s), Flatten(segs), TailEvents(t));
  }

  /** Index of the first heading end, or the length when there is none. */
  function EndIndex(evs: seq<Event>): (k: nat)
    ensures k <= |evs|
    ensures NoHeadingEnd(evs[..k])
    ensures k < |evs| ==> evs[k].EndHeading?
  {
    if |evs| == 0 then 0
    else if evs[0].EndHeading? then 0
    else 1 + EndIndex(evs[1..])
  }

  lemma FlattenCons(s: Segment, segs: seq<Segment>)
    ensures Flatten([s] + segs) == SegmentEvents(s) + Flatten(segs)
  {
    assert ([s] + segs)[1..] == segs;
  }

  lemma ConsValid(s: Segment, segs: seq<Segment>)
    requires ValidSegment(s) && ValidSegments(segs)
    ensures ValidSegments([s] + segs)
  {
    forall i | 0 <= i < |[s] + segs| ensures ValidSegment(([s] + segs)[i]) {
      if i > 0 {
        assert ([s] + segs)[i] == segs[i - 1];
      }
    }
  }

  /** The characterisation for every stream: extraction yields the headings
      of the stream's regions, in order, plus the unterminated last one. */
  lemma ExtractCharacterised(evs: seq<Event>)
    ensures ExtractHeadings(evs) == RegionHeadings(Segments(evs).0) + TailHeadings(Segments(evs).1)
  {
    SegmentsFlatten(evs);
    ExtractSegments(Segments(evs).0, Segments(evs).1);
  }

  /** A stream with no heading start yields no heading. */
  lemma {:induction false} NoStartNoHeadings(evs: seq<Event>)
    requires NoHeadingStart(evs)
    ensures ExtractHeadings(evs) == []
  {
    if |evs| > 0 {
      assert !evs[0].StartHeading?;
      NoStartNoHeadings(evs[1..]);
    }
  }

  /** The region headings are one per region. */
  lemma {:induction false} RegionCount(segs: seq<Segment>)
    ensures |RegionHeadings(segs)| == CountRegions(segs)
  {
    if |segs| > 0 {
      RegionCount(segs[1..]);
    }
  }

  /** Extraction pushes one heading per heading region of the stream, plus
      one for an unterminated last heading. */
  lemma ExtractCount(evs: seq<Event>)
    ensures |ExtractHeadings(evs)| == CountRegions(Segments(evs).0) + (if Segments(evs).1.Open? then 1 else 0)
  {
    ExtractCharacterised(evs);
    RegionCount(Segments(evs).0);
  }

  /** What is left after a heading region is a suffix of the stream. */
  lemma {:induction false} TakeHeadingSuffix(evs: seq<Event>)
    ensures TakeHeading(evs).1 == evs[|evs| - |TakeHeading(evs).1|..]
  {
    if |evs| > 0 && !evs[0].EndHeading? {
      TakeHeadingSuffix(evs[1..]);
      assert evs[1..][|evs[1..]| - |TakeHeading(evs).1|..] == evs[|evs| - |TakeHeading(evs).1|..];
    }
  }
}

=== FILE: levels.dfy ===
/** Depth normalisation of a chapter's heading levels (`build_toc`'s fold).
    A baseline starts at the first level. A heading more than one level deeper
    than the baseline is clamped to baseline + 1 and leaves the baseline where
    it is; any other heading keeps its level and becomes the new baseline. */
module Levels {
  import opened Sequences

  /** What one heading contributes: its normalised level and the baseline
      the next heading is compared with. */
  datatype Step = Step(level: nat, lastLower: nat)

  function Min(a: nat, b: nat): nat {
    if a <= b then a else b
  }

  /** One heading of the fold, given the current baseline. */
  function NormalizeStep(lastLower: nat, level: nat): (s: Step)
    ensures s.level == Min(level, lastLower + 1)
    ensures s.level < level ==> s.lastLower == lastLower
    ensures s.level == level ==> s.lastLower == level
    ensures s.lastLower <= s.level <= s.lastLower + 1
  {
    if lastLower + 1 < level then Step(lastLower + 1, lastLower) else Step(level, level)
  }

  /** The normalised levels of `raw`, folding from baseline `lastLower`. */
  function NormalizeFrom(lastLower: nat, raw: seq<nat>): (n: seq<nat>)
    ensures |n| == |raw|
    ensures forall i :: 0 <= i < |raw| ==> n[i] <= raw[i]
    ensures forall i :: 0 <= i < |raw| && raw[i] >= 1 ==> n[i] >= 1
    ensures |raw| > 0 ==> n[0] <= lastLower + 1
    ensures NoSkips(n)
    decreases |raw|
  {
    if |raw| == 0 then []
    else
      var s := NormalizeStep(lastLower, raw[0]);
      [s.level] + NormalizeFrom(s.lastLower, raw[1..])
  }

  /** The normalised levels of a chapter: the baseline starts at the first
      raw level, so the first heading keeps its level. */
  function Normalize(raw: seq<nat>): (n: seq<nat>)
    ensures |n| == |raw|
    ensures |raw| > 0 ==> n[0] == raw[0]
    ensures forall i :: 0 <= i < |raw| ==> n[i] <= raw[i]
    ensures forall i :: 0 <= i < |raw| && raw[i] >= 1 ==> n[i] >= 1
    ensures NoSkips(n)
  {
    if |raw| == 0 then [] else NormalizeFrom(raw[0], raw)
  }

  /** No heading is more than one level deeper than the one before it. */
  ghost predicate NoSkips(levels: seq<nat>) {
    forall i :: 0 < i < |levels| ==> levels[i] <= levels[i - 1] + 1
  }

  /** The closure of the fold: compares baseline + 1 with the level, and
      either clamps (baseline kept) or passes the level through (baseline
      moved to it). */
  method NormalizeOne(lastLower: nat, level: nat) returns (out: nat, lastLower': nat)
    ensures Step(out, lastLower') == NormalizeStep(lastLower, level)
  {
    lastLower' := lastLower;
    if lastLower + 1 < level {
      out := lastLower + 1;
    } else {
      lastLower' := level;
      out := level;
    }
  }

  /** The imperative fold: a mutable baseline, seeded from the first level
      (0 when there is none), updated only when a level passes through. */
  method NormalizeLevels(raw: seq<nat>) returns (n: seq<nat>)
    ensures n == Normalize(raw)
  {
    var lastLower := if |raw| > 0 then raw[0] else 0;
    n := [];
    var i := 0;
    while i < |raw|
      invariant 0 <= i <= |raw|
      invariant n + NormalizeFrom(lastLower, raw[i..]) == Normalize(raw)
    {
      NormalizeFromUnfold(lastLower, raw[i..]);
      assert raw[i..][1..] == raw[i + 1..];
      var level;
      level, lastLower := NormalizeOne(lastLower, raw[i]);
      AppendAssoc(n, [level], NormalizeFrom(lastLower, raw[i + 1..]));
      n := n + [level];
      i := i + 1;
    }
  }

  lemma NormalizeFromUnfold(lastLower: nat, raw: seq<nat>)
    requires |raw| > 0
    ensures NormalizeFrom(lastLower, raw)
         == [NormalizeStep(lastLower, raw[0]).level]
            + NormalizeFrom(NormalizeStep(lastLower, raw[0]).lastLower, raw[1..])
  {
  }

  // ---------------------------------------------------------------------
  // The baseline, position by position.
  // ---------------------------------------------------------------------

  /** The baseline after folding `raw` from `lastLower`. */
  function BaselineAfter(lastLower: nat, raw: seq<nat>): nat
    decreases |raw|
  {
    if |raw| == 0 then lastLower
    else BaselineAfter(NormalizeStep(lastLower, raw[0]).lastLower, raw[1..])
  }

  /** Heading `i` is normalised by one step from the baseline the headings
      before it leave behind. */
  lemma {:induction false} NormalizeFromAt(lastLower: nat, raw: seq<nat>, i: nat)
    requires i < |raw|
    ensures NormalizeFrom(lastLower, raw)[i]
         == NormalizeStep(BaselineAfter(lastLower, raw[..i]), raw[i]).level
    decreases |raw|
  {
    if i > 0 {
      var s := NormalizeStep(lastLower, raw[0]);
      NormalizeFromAt(s.lastLower, raw[1..], i - 1);
      assert raw[..i][1..] == raw[1..][..i - 1];
    }
  }

  lemma {:induction false} BaselineAfterSnoc(lastLower: nat, raw: seq<nat>, x: nat)
    ensures BaselineAfter(lastLower, raw + [x])
         == NormalizeStep(BaselineAfter(lastLower, raw), x).lastLower
    decreases |raw|
  {
    if |raw| == 0 {
      assert raw + [x] == [x];
      assert [x][1..] == [];
    } else {
      assert (raw + [x])[1..] == raw[1..] + [x];
      BaselineAfterSnoc(NormalizeStep(lastLower, raw[0]).lastLower, raw[1..], x);
    }
  }

  /** The baseline before heading `i` of a chapter. */
  function Baseline(raw: seq<nat>, i: nat): nat
    requires 0 < |raw| && i <= |raw|
  {
    BaselineAfter(raw[0], raw[..i])
  }

  /** How each heading relates to the baseline: a clamped heading sits exactly
      one level below the baseline and leaves it unchanged; a heading that
      passes through becomes the baseline; either way the baseline after a
      heading is at most its level and at most one above it. */
  lemma BaselineStep(raw: seq<nat>, i: nat)
    requires i < |raw|
    ensures Normalize(raw)[i] < raw[i] ==>
              Normalize(raw)[i] == Baseline(raw, i) + 1 && Baseline(raw, i + 1) == Baseline(raw, i)
    ensures Normalize(raw)[i] == raw[i] ==> Baseline(raw, i + 1) == raw[i]
    ensures Baseline(raw, i + 1) <= Normalize(raw)[i] <= Baseline(raw, i + 1) + 1
  {
    NormalizeFromAt(raw[0], raw, i);
    BaselineAfterSnoc(raw[0], raw[..i], raw[i]);
    assert raw[..i + 1] == raw[..i] + [raw[i]];
  }

  /** A heading no deeper than the previous normalised heading keeps its raw
      level (shallower jumps such as `[3, 1]` are not renumbered). */
  lemma ShallowPassesThrough(raw: seq<nat>, i: nat)
    requires 0 < i < |raw|
    requires raw[i] <= Normalize(raw)[i - 1]
    ensures Normalize(raw)[i] == raw[i]
  {
    BaselineStep(raw, i - 1);
    NormalizeFromAt(raw[0], raw, i);
  }

  // ---------------------------------------------------------------------
  // Fixed points.
  // ---------------------------------------------------------------------

  lemma {:induction false} NormalizeFromNoSkips(lastLower: nat, raw: seq<nat>)
    requires NoSkips(raw)
    requires |raw| > 0 ==> raw[0] <= lastLower + 1
    ensures NormalizeFrom(lastLower, raw) == raw
    decreases |raw|
  {
    if |raw| > 0 {
      var s := NormalizeStep(lastLower, raw[0]);
      assert s == Step(raw[0], raw[0]);
      assert NoSkips(raw[1..]) by {
        forall i | 0 < i < |raw[1..]| ensures raw[1..][i] <= raw[1..][i - 1] + 1 {
          assert raw[1..][i] == raw[i + 1] && raw[1..][i - 1] == raw[i];
        }
      }
      if |raw| > 1 {
        assert raw[1..][0] == raw[1];
      }
      NormalizeFromNoSkips(raw[0], raw[1..]);
    }
  }

  /** A level sequence is left unchanged exactly when it never deepens by
      more than one level at a time. */
  lemma NormalizeFixpoint(raw: seq<nat>)
    ensures Normalize(raw) == raw <==> NoSkips(raw)
  {
    if NoSkips(raw) && |raw| > 0 {
      NormalizeFromNoSkips(raw[0], raw);
    }
  }

  /** Normalising twice is normalising once. */
  lemma NormalizeIdempotent(raw: seq<nat>)
    ensures Normalize(Normalize(raw)) == Normalize(raw)
  {
    NormalizeFixpoint(Normalize(raw));
  }

  // ---------------------------------------------------------------------
  // Worked examples.
  // ---------------------------------------------------------------------

  /** A skipped level is pulled up; the next heading is compared with the
      unmoved baseline. */
  lemma ExampleSkip()
    ensures Normalize([1, 3, 2]) == [1, 2, 2]
    ensures Normalize([1, 3, 3]) == [1, 2, 2]
  {
    assert [1, 3, 2][1..] == [3, 2] && [3, 2][1..] == [2];
    assert [1, 3, 3][1..] == [3, 3] && [3, 3][1..] == [3];
  }

  /** The first heading need not be at level 1, and a shallower jump is kept. */
  lemma ExampleDeepStart()
    ensures Normalize([2, 1, 1, 4]) == [2, 1, 1, 2]
    ensures Normalize([3, 1]) == [3, 1]
  {
    assert [2, 1, 1, 4][1..] == [1, 1, 4] && [1, 1, 4][1..] == [1, 4] && [1, 4][1..] == [4];
    assert [3, 1][1..] == [1];
  }

  /** Because a clamp does not move the baseline, a heading one level below a
      clamped heading is clamped to the same level as it. */
  lemma ExampleChildOfClamped()
    ensures Normalize([1, 3, 4]) == [1, 2, 2]
  {
    assert [1, 3, 4][1..] == [3, 4] && [3, 4][1..] == [4];
  }
}

=== FILE: render.dfy ===
/** Rendering of the outline (`build_toc`'s output half): one markdown list
    line per heading, indented two spaces per level below the first, and the
    fixed HTML container the parsed lines are wrapped in. */
module Render {
  import opened Wrappers
  import opened Events

  /** Opening of the container, with its title paragraph. */
  const TocOpen: string := "<div id=\"toc\"><p class=\"toc-title\">Contents:</p>\n"

  /** Closing of the container. */
  const TocClose: string := "</div>\n"

  function Spaces(k: nat): (s: string)
    ensures |s| == k
    ensures forall i :: 0 <= i < k ==> s[i] == ' '
  {
    if k == 0 then "" else Spaces(k - 1) + " "
  }

  /** `{1:0$}* [{name}](#{slug})` followed by a newline, with width
      `2 * (level - 1)`: the empty string padded to that many spaces. */
  function TocLine(h: Header): (line: string)
    ensures |line| == 2 * (h.level - 1) + |h.name| + |h.slug| + 8
    ensures line[|line| - 1] == '\n'
  {
    Spaces(2 * (h.level - 1)) + "* [" + h.name + "](#" + h.slug + ")\n"
  }

  /** The lines of all headings, in order. */
  function TocLines(hs: seq<Header>): (s: string)
    ensures |s| >= 8 * |hs|
    ensures s == "" <==> |hs| == 0
  {
    if |hs| == 0 then "" else TocLine(hs[0]) + TocLines(hs[1..])
  }

  lemma {:induction false} TocLinesAppend(a: seq<Header>, b: seq<Header>)
    ensures TocLines(a + b) == TocLines(a) + TocLines(b)
  {
    if |a| == 0 {
      assert a + b == b;
    } else {
      assert (a + b)[1..] == a[1..] + b;
      TocLinesAppend(a[1..], b);
    }
  }

  lemma TocLinesSnoc(hs: seq<Header>, i: nat)
    requires i < |hs|
    ensures TocLines(hs[..i + 1]) == TocLines(hs[..i]) + TocLine(hs[i])
  {
    assert hs[..i + 1] == hs[..i] + [hs[i]];
    TocLinesAppend(hs[..i], [hs[i]]);
    assert [hs[i]][1..] == [];
  }

  /** The `for` loop of `build_toc`: each heading's line is written to the
      end of `dest` in turn. */
  method WriteLines(dest: string, hs: seq<Header>) returns (out: string)
    ensures out == dest + TocLines(hs)
    ensures |out| >= |dest| && out[..|dest|] == dest
    ensures |hs| == 0 ==> out == dest
  {
    out := dest;
    var i := 0;
    while i < |hs|
      invariant 0 <= i <= |hs|
      invariant out == dest + TocLines(hs[..i])
    {
      TocLinesSnoc(hs, i);
      assert out + TocLine(hs[i]) == dest + TocLines(hs[..i + 1]);
      out := out + TocLine(hs[i]);
      i := i + 1;
    }
    assert hs[..i] == hs;
    assert out[..|dest|] == dest;
  }

  /** The events handed on: the container opening, the parse of the written
      lines, the container closing. `parse` stands for the markdown parser. */
  function TocEvents(parse: string -> seq<Event>, dest: string): (evs: seq<Event>)
    ensures |evs| == |parse(dest)| + 2
    ensures evs[0] == Html(TocOpen)
    ensures evs[1..|evs| - 1] == parse(dest)
    ensures evs[|evs| - 1] == Html(TocClose)
  {
    [Html(TocOpen)] + parse(dest) + [Html(TocClose)]
  }

  // ---------------------------------------------------------------------
  // Reading the lines back: the inverse of rendering.
  // ---------------------------------------------------------------------

  function IndexOf(s: string, c: char): (r: Option<nat>)
    ensures r.Some? ==> r.value < |s| && s[r.value] == c && c !in s[..r.value]
    ensures r.None? ==> c !in s
  {
    if |s| == 0 then None
    else if s[0] == c then Some(0)
    else match IndexOf(s[1..], c)
      case None => None
      case Some(k) => assert s[..k + 1] == [s[0]] + s[1..][..k]; Some(k + 1)
  }

  function LastIndexOf(s: string, c: char): (r: Option<nat>)
    ensures r.Some? ==> r.value < |s| && s[r.value] == c && c !in s[r.value + 1..]
    ensures r.None? ==> c !in s
  {
    if |s| == 0 then None
    else if s[|s| - 1] == c then Some(|s| - 1)
    else match LastIndexOf(s[..|s| - 1], c)
      case None => None
      case Some(k) => assert s[k + 1..] == s[..|s| - 1][k + 1..] + [s[|s| - 1]]; Some(k)
  }

  function LeadingSpaces(s: string): (k: nat)
    ensures k <= |s|
    ensures forall i :: 0 <= i < k ==> s[i] == ' '
    ensures k < |s| ==> s[k] != ' '
  {
    if |s| == 0 || s[0] != ' ' then 0 else 1 + LeadingSpaces(s[1..])
  }

  /** Reads one outline line (without its newline) back into a heading: the
      indentation gives the level, the rest is a list item holding a link. */
  function ParseLine(line: string): Option<Header> {
    var sp := LeadingSpaces(line);
    if sp % 2 != 0 then None
    else match ParseItem(line[sp..])
      case None => None
      case Some(link) => Some(Header(sp / 2 + 1, link.1, link.0))
  }

  /** `* [` link `)`: the bullet and the link around its name and slug. */
  function ParseItem(item: string): Option<(string, string)> {
    if |item| < 4 || item[..3] != "* [" || item[|item| - 1] != ')' then None
    else ParseLink(item[3..|item| - 1])
  }

  /** `name](#slug`: the slug follows the last `#`, the name precedes the
      `](` just before it. */
  function ParseLink(body: string): Option<(string, string)> {
    match LastIndexOf(body, '#')
    case None => None
    case Some(k) =>
      if k < 2 || body[k - 2..k] != "](" then None
      else Some((body[..k - 2], body[k + 1..]))
  }

  /** Reads newline-terminated outline lines back into headings. */
  function ParseLines(s: string): Option<seq<Header>>
    decreases |s|
  {
    if |s| == 0 then Some([])
    else match IndexOf(s, '\n')
      case None => None
      case Some(k) =>
        match ParseLine(s[..k])
        case None => None
        case Some(h) =>
          match ParseLines(s[k + 1..])
          case None => None
          case Some(hs) => Some([h] + hs)
  }

  /** A heading the lines can carry unambiguously: no newline in its name or
      slug, and no `#` in its slug. */
  predicate Readable(h: Header) {
    '\n' !in h.name && '\n' !in h.slug && '#' !in h.slug
  }

  lemma LeadingSpacesOf(k: nat, rest: string)
    requires |rest| > 0 && rest[0] != ' '
    ensures LeadingSpaces(Spaces(k) + rest) == k
  {
    var s := Spaces(k) + rest;
    assert forall i :: 0 <= i < k ==> s[i] == ' ';
    assert s[k] != ' ';
  }

  /** The link text and target of a rendered line: the last `#` is the one
      that opens the slug. */
  lemma LastHashOpensSlug(name: string, slug: string)
    requires '#' !in slug
    ensures LastIndexOf(name + "](#" + slug, '#') == Some(|name| + 2)
  {
    var body := name + "](#" + slug;
    var k := |name| + 2;
    assert body[k] == '#';
    assert body[k + 1..] == slug;
  }

  /** A rendered line without its newline, taken apart. */
  lemma TocLineShape(h: Header)
    ensures |TocLine(h)| > 0 && TocLine(h)[|TocLine(h)| - 1] == '\n'
    ensures TocLine(h)[..|TocLine(h)| - 1]
         == Spaces(2 * (h.level - 1)) + ("* [" + (h.name + "](#" + h.slug) + ")")
  {
  }

  lemma ParseLinkOf(name: string, slug: string)
    requires '#' !in slug
    ensures ParseLink(name + "](#" + slug) == Some((name, slug))
  {
    var body := name + "](#" + slug;
    var k := |name| + 2;
    LastHashOpensSlug(name, slug);
    assert body[k - 2..k] == "](";
    assert body[..k - 2] == name;
    assert body[k + 1..] == slug;
  }

  lemma ParseItemOf(body: string)
    ensures ParseItem("* [" + body + ")") == ParseLink(body)
  {
    var item := "* [" + body + ")";
    assert item[..3] == "* [";
    assert item[3..|item| - 1] == body;
  }

  lemma ParseLineParts(level: Level, name: string, slug: string)
    requires '#' !in slug
    ensures ParseLine(Spaces(2 * (level - 1)) + ("* [" + (name + "](#" + slug) + ")"))
         == Some(Header(level, slug, name))
  {
    var sp := 2 * (level - 1);
    var item := "* [" + (name + "](#" + slug) + ")";
    var line := Spaces(sp) + item;
    LeadingSpacesOf(sp, item);
    assert sp % 2 == 0 && sp / 2 + 1 == level;
    assert line[sp..] == item;
    ParseItemOf(name + "](#" + slug);
    ParseLinkOf(name, slug);
  }

  /** Reading a rendered line gives its heading back, provided its slug has
      no `#`. */
  lemma ParseTocLine(h: Header)
    requires '#' !in h.slug
    ensures ParseLine(TocLine(h)[..|TocLine(h)| - 1]) == Some(h)
  {
    TocLineShape(h);
    ParseLineParts(h.level, h.name, h.slug);
  }

  lemma FirstNewline(line: string, rest: string)
    requires '\n' !in line
    ensures IndexOf(line + "\n" + rest, '\n') == Some(|line|)
  {
    var s := line + "\n" + rest;
    assert s[|line|] == '\n';
    assert s[..|line|] == line;
  }

  /** One more line in front of readable lines reads as one more heading. */
  lemma ParseLinesCons(line: string, rest: string, h: Header, hs: seq<Header>)
    requires '\n' !in line
    requires ParseLine(line) == Some(h)
    requires ParseLines(rest) == Some(hs)
    ensures ParseLines(line + "\n" + rest) == Some([h] + hs)
  {
    var s := line + "\n" + rest;
    FirstNewline(line, rest);
    assert s[..|line|] == line;
    assert s[|line| + 1..] == rest;
  }

  /** The line of a heading with no newline in its name or slug is a
      newline-free line followed by one newline. */
  lemma TocLineSplit(h: Header)
    requires '\n' !in h.name && '\n' !in h.slug
    ensures TocLine(h) == TocLine(h)[..|TocLine(h)| - 1] + "\n"
    ensures '\n' !in TocLine(h)[..|TocLine(h)| - 1]
  {
    TocLineShape(h);
  }

  /** Reading rendered lines gives the headings back, in order. */
  lemma {:induction false} ParseTocLines(hs: seq<Header>)
    requires forall i :: 0 <= i < |hs| ==> Readable(hs[i])
    ensures ParseLines(TocLines(hs)) == Some(hs)
  {
    if |hs| > 0 {
      var h := hs[0];
      var line := TocLine(h)[..|TocLine(h)| - 1];
      assert Readable(h);
      TocLineSplit(h);
      ParseTocLine(h);
      ParseTocLines(hs[1..]);
      assert TocLines(hs) == line + "\n" + TocLines(hs[1..]);
      ParseLinesCons(line, TocLines(hs[1..]), h, hs[1..]);
      assert [h] + hs[1..] == hs;
    }
  }
}

=== FILE: sequences.dfy ===
/** Two facts about sequence concatenation that the proofs cite by name. */
module Sequences {

  lemma AppendAssoc<T>(a: seq<T>, b: seq<T>, c: seq<T>)
    ensures (a + b) + c == a + (b + c)
  {
  }

  /** A sequence cut around position `j`. */
  lemma SplitAround<T>(s: seq<T>, j: nat)
    requires 0 < j < |s|
    ensures s == [s[0]] + s[1..j] + [s[j]] + s[j + 1..]
  {
  }
}

=== FILE: slugs.dfy ===
/** Anchor slugs for a chapter's headings: the base slug of a heading is its
    normalised text, and a per-chapter counter keyed by base slug makes every
    later heading with the same base slug carry `-1`, `-2`, ... after it. */
module Slugs {
  import opened Decimal

  /** The slug of the `k`-th occurrence (counting from 0) of base slug `base`. */
  function Dedup(base: string, k: nat): (s: string)
    ensures k == 0 ==> s == base
    ensures k > 0 ==> |s| > |base| + 1 && s[..|base| + 1] == base + "-"
    ensures k > 0 ==> AllDigits(s[|base| + 1..]) && ParseDecimal(s[|base| + 1..]) == k
  {
    if k == 0 then base
    else
      var s := base + "-" + NatToString(k);
      assert s[|base| + 1..] == NatToString(k);
      ParseNatToString(k);
      s
  }

  /** Different occurrence numbers of one base slug give different slugs. */
  lemma DedupInjective(base: string, j: nat, k: nat)
    requires Dedup(base, j) == Dedup(base, k)
    ensures j == k
  {
    var n := |base| + 1;
    if j != 0 && k != 0 {
      assert Dedup(base, j)[n..] == NatToString(j);
      assert Dedup(base, k)[n..] == NatToString(k);
      NatToStringInjective(j, k);
    }
  }

  /** The counter's value for `base`, absent meaning zero. */
  function CountOf(counter: map<string, nat>, base: string): nat {
    if base in counter then counter[base] else 0
  }

  /** Number of times `x` occurs in `s`. */
  function Occurrences(s: seq<string>, x: string): nat {
    if |s| == 0 then 0
    else Occurrences(s[..|s| - 1], x) + (if s[|s| - 1] == x then 1 else 0)
  }

  /** One heading's step: `entry(base).or_insert(0)` gives the current count,
      a positive count is appended as `-<count>`, and the count goes up by one. */
  function NextSlug(counter: map<string, nat>, base: string): (res: (string, map<string, nat>))
    ensures res.0 == Dedup(base, CountOf(counter, base))
    ensures CountOf(res.1, base) == CountOf(counter, base) + 1
    ensures forall x :: x != base ==> CountOf(res.1, x) == CountOf(counter, x)
    ensures res.1.Keys == counter.Keys + {base}
  {
    var count := if base in counter then counter[base] else 0;
    var slug := if count > 0 then base + "-" + NatToString(count) else base;
    (slug, counter[base := count + 1])
  }

  /** The slugs of a chapter's base slugs, in order, and the final counter;
      the counter starts empty for every chapter. */
  function AssignSlugs(bases: seq<string>): (res: (seq<string>, map<string, nat>))
    ensures |res.0| == |bases|
  {
    if |bases| == 0 then ([], map[])
    else
      var (slugs, counter) := AssignSlugs(bases[..|bases| - 1]);
      var (slug, counter') := NextSlug(counter, bases[|bases| - 1]);
      (slugs + [slug], counter')
  }

  /** After the chapter, the counter holds exactly the chapter's base slugs,
      each with its number of occurrences. */
  lemma {:induction false} CounterCountsOccurrences(bases: seq<string>)
    ensures forall x :: CountOf(AssignSlugs(bases).1, x) == Occurrences(bases, x)
    ensures forall x :: x in AssignSlugs(bases).1 <==> x in bases
  {
    if |bases| > 0 {
      var prefix := bases[..|bases| - 1];
      CounterCountsOccurrences(prefix);
      assert forall x :: x in bases <==> x in prefix || x == bases[|bases| - 1] by {
        assert bases == prefix + [bases[|bases| - 1]];
      }
    }
  }

  /** The slug of heading `i` is its base slug followed by the number of
      earlier headings with the same base slug (nothing when there are none). */
  lemma {:induction false} SlugIsOccurrenceNumber(bases: seq<string>, i: nat)
    requires i < |bases|
    ensures AssignSlugs(bases).0[i] == Dedup(bases[i], Occurrences(bases[..i], bases[i]))
  {
    var prefix := bases[..|bases| - 1];
    if i == |bases| - 1 {
      CounterCountsOccurrences(prefix);
      assert bases[..i] == prefix;
    } else {
      SlugIsOccurrenceNumber(prefix, i);
      assert prefix[..i] == bases[..i];
    }
  }

  lemma {:induction false} OccurrencesAppend(a: seq<string>, b: seq<string>, x: string)
    ensures Occurrences(a + b, x) == Occurrences(a, x) + Occurrences(b, x)
  {
    if |b| == 0 {
      assert a + b == a;
    } else {
      assert (a + b)[..|a + b| - 1] == a + b[..|b| - 1];
      OccurrencesAppend(a, b[..|b| - 1], x);
    }
  }

  lemma OccurrencesPrefixGrows(s: seq<string>, i: nat, j: nat)
    requires i < j <= |s|
    ensures Occurrences(s[..j], s[i]) > Occurrences(s[..i], s[i])
  {
    assert s[..j] == s[..i] + s[i..j];
    OccurrencesAppend(s[..i], s[i..j], s[i]);
    assert s[i..j] == [s[i]] + s[i + 1..j];
    OccurrencesAppend([s[i]], s[i + 1..j], s[i]);
    assert [s[i]][..0] == [];
  }

  /** Two headings with the same base slug never share a slug. */
  lemma SameBaseDistinctSlugs(bases: seq<string>, i: nat, j: nat)
    requires i < j < |bases|
    requires bases[i] == bases[j]
    ensures AssignSlugs(bases).0[i] != AssignSlugs(bases).0[j]
  {
    SlugIsOccurrenceNumber(bases, i);
    SlugIsOccurrenceNumber(bases, j);
    OccurrencesPrefixGrows(bases, i, j);
    if AssignSlugs(bases).0[i] == AssignSlugs(bases).0[j] {
      DedupInjective(bases[i], Occurrences(bases[..i], bases[i]), Occurrences(bases[..j], bases[i]));
    }
  }

  /** The first heading of a chapter keeps its base slug. */
  lemma OneFoo()
    ensures AssignSlugs(["foo"]).0 == ["foo"]
    ensures AssignSlugs(["foo"]).1 == map["foo" := 1]
  {
    var none: seq<string> := [];
    assert ["foo"][..0] == none;
  }

  /** The first two steps of a chapter whose first headings share the base
      slug `foo`. */
  lemma TwoFoos()
    ensures AssignSlugs(["foo", "foo"]).0 == ["foo", "foo-1"]
    ensures AssignSlugs(["foo", "foo"]).1 == map["foo" := 2]
  {
    OneFoo();
    assert ["foo", "foo"][..1] == ["foo"];
    assert NatToString(1) == "1";
    assert Dedup("foo", 1) == "foo-1";
  }

  /** Three headings with the same base slug are numbered from the second. */
  lemma RepeatedBaseExample()
    ensures AssignSlugs(["foo", "foo", "foo"]).0 == ["foo", "foo-1", "foo-2"]
  {
    TwoFoos();
    assert ["foo", "foo", "foo"][..2] == ["foo", "foo"];
    assert NatToString(2) == "2";
    assert Dedup("foo", 2) == "foo-2";
  }

  /** Slugs are distinct per base slug only: a heading whose base slug is
      `foo-1` collides with the second `foo`. */
  lemma CrossBaseCollision()
    ensures AssignSlugs(["foo", "foo", "foo-1"]).0 == ["foo", "foo-1", "foo-1"]
  {
    TwoFoos();
    assert ["foo", "foo", "foo-1"][..2] == ["foo", "foo"];
    assert CountOf(map["foo" := 2], "foo-1") == 0;
  }
}

=== FILE: toc.dfy ===
/** The table-of-contents preprocessor for one chapter: `generate_toc`
    collects the chapter's headings with their slugs, `build_toc` normalises
    their levels, writes the outline lines and wraps them, and the rendered
    fragment is put in front of the chapter's content.

    The foreign collaborators are parameters: `normalizeId` is mdBook's
    `normalize_id`, `parse` the markdown parser (`Parser::new`), and `cmark`
    the markdown serialiser, which may fail. */
module Toc {
  import opened Wrappers
  import opened Decimal
  import opened Events
  import opened Extract
  import opened Slugs
  import opened Levels
  import opened Render
  import opened Sequences

  // ---------------------------------------------------------------------
  // Heading collection (the scan of `generate_toc`).
  // ---------------------------------------------------------------------

  /** The base slug of every extracted heading. */
  function BaseSlugs(normalizeId: string -> string, raws: seq<RawHeading>): (bs: seq<string>)
    ensures |bs| == |raws|
    ensures forall i :: 0 <= i < |raws| ==> bs[i] == normalizeId(raws[i].text)
  {
    seq(|raws|, i requires 0 <= i < |raws| => normalizeId(raws[i].text))
  }

  /** Pairs each extracted heading with its slug. */
  function Annotate(raws: seq<RawHeading>, slugs: seq<string>): (hs: seq<Header>)
    requires |slugs| == |raws|
    ensures |hs| == |raws|
    ensures forall i :: 0 <= i < |raws| ==> hs[i] == Header(raws[i].level, slugs[i], raws[i].text)
  {
    seq(|raws|, i requires 0 <= i < |raws| => Header(raws[i].level, slugs[i], raws[i].text))
  }

  /** The `(level, slug, name)` list `generate_toc` builds for a chapter's
      event stream, with a counter that starts empty for the chapter. */
  function ChapterHeaders(normalizeId: string -> string, evs: seq<Event>): (hs: seq<Header>)
    ensures |hs| == |ExtractHeadings(evs)|
    ensures forall i :: 0 <= i < |hs| ==>
              hs[i].level == ExtractHeadings(evs)[i].level && hs[i].name == ExtractHeadings(evs)[i].text
  {
    var raws := ExtractHeadings(evs);
    Annotate(raws, AssignSlugs(BaseSlugs(normalizeId, raws)).0)
  }

  /** Heading `i` of a chapter keeps its extracted level and text, and its
      slug is its base slug numbered by the earlier headings sharing it. */
  lemma ChapterHeaderAt(normalizeId: string -> string, evs: seq<Event>, i: nat)
    requires i < |ExtractHeadings(evs)|
    ensures |ChapterHeaders(normalizeId, evs)| == |ExtractHeadings(evs)|
    ensures ChapterHeaders(normalizeId, evs)[i].level == ExtractHeadings(evs)[i].level
    ensures ChapterHeaders(normalizeId, evs)[i].name == ExtractHeadings(evs)[i].text
    ensures var bs := BaseSlugs(normalizeId, ExtractHeadings(evs));
            ChapterHeaders(normalizeId, evs)[i].slug == Dedup(bs[i], Occurrences(bs[..i], bs[i]))
  {
    SlugIsOccurrenceNumber(BaseSlugs(normalizeId, ExtractHeadings(evs)), i);
  }

  /** Two headings of a chapter whose texts normalise to the same base slug
      get different slugs. */
  lemma ChapterSlugsDistinctPerBase(normalizeId: string -> string, evs: seq<Event>, i: nat, j: nat)
    requires i < j < |ExtractHeadings(evs)|
    requires normalizeId(ExtractHeadings(evs)[i].text) == normalizeId(ExtractHeadings(evs)[j].text)
    ensures ChapterHeaders(normalizeId, evs)[i].slug != ChapterHeaders(normalizeId, evs)[j].slug
  {
    SameBaseDistinctSlugs(BaseSlugs(normalizeId, ExtractHeadings(evs)), i, j);
  }

  lemma BaseSlugsSnoc(normalizeId: string -> string, raws: seq<RawHeading>, r: RawHeading)
    ensures BaseSlugs(normalizeId, raws + [r]) == BaseSlugs(normalizeId, raws) + [normalizeId(r.text)]
  {
  }

  lemma AnnotateSnoc(raws: seq<RawHeading>, slugs: seq<string>, r: RawHeading, slug: string)
    requires |slugs| == |raws|
    ensures Annotate(raws + [r], slugs + [slug]) == Annotate(raws, slugs) + [Header(r.level, slug, r.text)]
  {
  }

  /** One heading more: its slug and the counter after it. */
  lemma AssignSlugsSnoc(bs: seq<string>, b: string)
    ensures AssignSlugs(bs + [b]).0 == AssignSlugs(bs).0 + [NextSlug(AssignSlugs(bs).1, b).0]
    ensures AssignSlugs(bs + [b]).1 == NextSlug(AssignSlugs(bs).1, b).1
  {
    assert (bs + [b])[..|bs|] == bs;
  }

  lemma TakeHeadingAt(evs: seq<Event>, j: nat)
    requires j < |evs| && !evs[j].EndHeading?
    ensures TakeHeading(evs[j..])
         == (InlineText(evs[j]) + TakeHeading(evs[j + 1..]).0, TakeHeading(evs[j + 1..]).1)
  {
    assert evs[j..][1..] == evs[j + 1..];
  }

  /** The body of the inner loop: text verbatim, code in backticks, any
      other event ignored. */
  method AppendInline(heading: string, e: Event) returns (heading': string)
    ensures heading' == heading + InlineText(e)
  {
    heading' := heading;
    match e {
      case Text(t) => heading' := heading' + t;
      case Code(c) => heading' := heading' + ("`" + c + "`");
      case _ =>
    }
  }

  /** The inner `take_while` loop: folds the events of one heading region
      into its text, starting at `start`, and returns the index after the
      consumed heading end (or the end of the stream). */
  method TakeHeadingText(evs: seq<Event>, start: nat) returns (heading: string, next: nat)
    requires start <= |evs|
    ensures start <= next <= |evs|
    ensures TakeHeading(evs[start..]) == (heading, evs[next..])
  {
    heading := "";
    next := start;
    while next < |evs| && !evs[next].EndHeading?
      invariant start <= next <= |evs|
      invariant TakeHeading(evs[start..]).0 == heading + TakeHeading(evs[next..]).0
      invariant TakeHeading(evs[start..]).1 == TakeHeading(evs[next..]).1
    {
      TakeHeadingAt(evs, next);
      AppendAssoc(heading, InlineText(evs[next]), TakeHeading(evs[next + 1..]).0);
      heading := AppendInline(heading, evs[next]);
      next := next + 1;
    }
    if next < |evs| {
      assert evs[next..][1..] == evs[next + 1..];
      assert TakeHeading(evs[next..]) == ("", evs[next + 1..]);
      next := next + 1;
    } else {
      assert TakeHeading(evs[next..]) == ("", []);
    }
    assert heading + "" == heading;
  }

  lemma ExtractAtStart(evs: seq<Event>, i: nat)
    requires i < |evs| && evs[i].StartHeading?
    ensures ExtractHeadings(evs[i..])
         == [RawHeading(evs[i].level, TakeHeading(evs[i + 1..]).0)] + ExtractHeadings(TakeHeading(evs[i + 1..]).1)
  {
    assert evs[i..][1..] == evs[i + 1..];
  }

  lemma ExtractAtOther(evs: seq<Event>, i: nat)
    requires i < |evs| && !evs[i].StartHeading?
    ensures ExtractHeadings(evs[i..]) == ExtractHeadings(evs[i + 1..])
  {
    assert evs[i..][1..] == evs[i + 1..];
  }

  /** The slug and counter of one more heading, in terms of the headings so far. */
  lemma SlugStep(normalizeId: string -> string, raws: seq<RawHeading>, r: RawHeading)
    ensures var bs := BaseSlugs(normalizeId, raws);
            var next := NextSlug(AssignSlugs(bs).1, normalizeId(r.text));
            && AssignSlugs(BaseSlugs(normalizeId, raws + [r])).1 == next.1
            && Annotate(raws + [r], AssignSlugs(BaseSlugs(normalizeId, raws + [r])).0)
               == Annotate(raws, AssignSlugs(bs).0) + [Header(r.level, next.0, r.text)]
  {
    var bs := BaseSlugs(normalizeId, raws);
    var b := normalizeId(r.text);
    BaseSlugsSnoc(normalizeId, raws, r);
    AssignSlugsSnoc(bs, b);
    AnnotateSnoc(raws, AssignSlugs(bs).0, r, NextSlug(AssignSlugs(bs).1, b).0);
  }

  /** The counter block of `generate_toc`: the current count of `base`
      (0 when absent), `-<count>` appended when it is positive, and the count
      incremented. */
  method NumberSlug(counter: map<string, nat>, base: string) returns (slug: string, counter': map<string, nat>)
    ensures (slug, counter') == NextSlug(counter, base)
  {
    slug := base;
    var count := if base in counter then counter[base] else 0;
    if count > 0 {
      slug := slug + "-" + NatToString(count);
    }
    counter' := counter[base := count + 1];
  }

  /** The scan of `generate_toc`: walks the stream, reads each top-level
      heading's text, and numbers its slug with a per-chapter counter. */
  method CollectHeaders(normalizeId: string -> string, evs: seq<Event>) returns (headers: seq<Header>)
    ensures headers == ChapterHeaders(normalizeId, evs)
  {
    headers := [];
    var counter: map<string, nat> := map[];
    ghost var raws: seq<RawHeading> := [];
    var i := 0;
    while i < |evs|
      invariant 0 <= i <= |evs|
      invariant raws + ExtractHeadings(evs[i..]) == ExtractHeadings(evs)
      invariant counter == AssignSlugs(BaseSlugs(normalizeId, raws)).1
      invariant headers == Annotate(raws, AssignSlugs(BaseSlugs(normalizeId, raws)).0)
    {
      var e := evs[i];
      if e.StartHeading? {
        ExtractAtStart(evs, i);
        var heading, next := TakeHeadingText(evs, i + 1);
        var slug;
        slug, counter := NumberSlug(counter, normalizeId(heading));
        var r := RawHeading(e.level, heading);
        SlugStep(normalizeId, raws, r);
        AppendAssoc(raws, [r], ExtractHeadings(evs[next..]));
        headers := headers + [Header(e.level, slug, heading)];
        raws := raws + [r];
        i := next;
      } else {
        ExtractAtOther(evs, i);
        i := i + 1;
      }
    }
    assert evs[i..] == [];
    assert raws == ExtractHeadings(evs);
  }

  // ---------------------------------------------------------------------
  // The outline (`build_toc`).
  // ---------------------------------------------------------------------

  function LevelsOf(hs: seq<Header>): (ls: seq<nat>)
    ensures |ls| == |hs|
    ensures forall i :: 0 <= i < |hs| ==> ls[i] == hs[i].level
  {
    seq(|hs|, i requires 0 <= i < |hs| => hs[i].level)
  }

  /** The headings with their levels normalised; slugs, names and order are
      untouched. */
  function NormalizeHeaders(hs: seq<Header>): (ns: seq<Header>)
    ensures |ns| == |hs|
    ensures forall i :: 0 <= i < |hs| ==> ns[i].slug == hs[i].slug && ns[i].name == hs[i].name
    ensures LevelsOf(ns) == Normalize(LevelsOf(hs))
  {
    var levels := Normalize(LevelsOf(hs));
    seq(|hs|, i requires 0 <= i < |hs| => Header(levels[i], hs[i].slug, hs[i].name))
  }

  /** The text `build_toc` writes for a heading list: one line per heading
      at its normalised level. */
  function TocText(hs: seq<Header>): string {
    TocLines(NormalizeHeaders(hs))
  }

  /** `build_toc`: normalises the levels, appends one line per heading to
      `dest`, and returns the wrapped parse of `dest`. */
  method BuildToc(parse: string -> seq<Event>, headers: seq<Header>, dest: string)
    returns (events: seq<Event>, out: string)
    ensures out == dest + TocText(headers)
    ensures |out| >= |dest| && out[..|dest|] == dest
    ensures |headers| == 0 ==> out == dest
    ensures events == [Html(TocOpen)] + parse(out) + [Html(TocClose)]
  {
    var levels := NormalizeLevels(LevelsOf(headers));
    var normalized := seq(|headers|, i requires 0 <= i < |headers| => Header(levels[i], headers[i].slug, headers[i].name));
    assert normalized == NormalizeHeaders(headers);
    out := WriteLines(dest, normalized);
    events := TocEvents(parse, out);
  }

  /** Reading the written outline back gives every heading in order with its
      normalised level, its name and the slug it was assigned, provided no
      name or slug holds a newline and no slug holds a `#`. */
  lemma TocTextRoundTrip(hs: seq<Header>)
    requires forall i :: 0 <= i < |hs| ==> Readable(hs[i])
    ensures ParseLines(TocText(hs)) == Some(NormalizeHeaders(hs))
  {
    var ns := NormalizeHeaders(hs);
    assert forall i :: 0 <= i < |ns| ==> ns[i].level == LevelsOf(ns)[i];
    ParseTocLines(ns);
  }

  /** The outline never nests a heading more than one level below the one
      before it, starts at the first heading's own level, and never puts a
      heading deeper than it was declared. */
  lemma TocLevelsWellNested(hs: seq<Header>)
    ensures var ls := LevelsOf(NormalizeHeaders(hs));
            && NoSkips(ls)
            && (|hs| > 0 ==> ls[0] == hs[0].level)
            && forall i :: 0 <= i < |hs| ==> 1 <= ls[i] <= hs[i].level
  {
  }

  // ---------------------------------------------------------------------
  // The chapter (`generate_toc` as a whole).
  // ---------------------------------------------------------------------

  /** The events `generate_toc` hands to the serialiser for a chapter. */
  function ChapterTocEvents(normalizeId: string -> string, parse: string -> seq<Event>, content: string): (evs: seq<Event>)
    ensures |evs| >= 2 && evs[0] == Html(TocOpen) && evs[|evs| - 1] == Html(TocClose)
    ensures evs[1..|evs| - 1] == parse(TocText(ChapterHeaders(normalizeId, parse(content))))
  {
    TocEvents(parse, TocText(ChapterHeaders(normalizeId, parse(content))))
  }

  const RegenerateFailed: string := "failed to regenerate markdown"

  /** `generate_toc`: the new chapter content is the serialised outline, a
      newline, and the old content. The panic of `.expect` on a serialiser
      failure, which stops the whole book run, is modelled as
      `Failure(RegenerateFailed)`. */
  method GenerateToc(normalizeId: string -> string, parse: string -> seq<Event>,
                     cmark: seq<Event> -> Option<string>, content: string)
    returns (r: Result<string, string>)
    ensures r.Success? <==> cmark(ChapterTocEvents(normalizeId, parse, content)).Some?
    ensures r.Success? ==> r.value == cmark(ChapterTocEvents(normalizeId, parse, content)).value + "\n" + content
    ensures r.Success? ==> |r.value| > |content| && r.value[|r.value| - |content|..] == content
    ensures r.Failure? ==> r.error == RegenerateFailed
  {
    var evs := parse(content);
    var headers := CollectHeaders(normalizeId, evs);
    var toc, temp := BuildToc(parse, headers, "");
    assert temp == TocText(headers);
    match cmark(toc) {
      case None =>
        r := Failure(RegenerateFailed);
      case Some(tocStr) =>
        var updated := tocStr + "\n" + content;
        assert updated[|updated| - |content|..] == content;
        r := Success(updated);
    }
  }

  /** A chapter without headings still gets the container, around the parse
      of an empty outline. */
  lemma EmptyChapterToc(normalizeId: string -> string, parse: string -> seq<Event>, content: string)
    requires NoHeadingStart(parse(content))
    ensures ChapterTocEvents(normalizeId, parse, content) == [Html(TocOpen)] + parse("") + [Html(TocClose)]
  {
    NoStartNoHeadings(parse(content));
  }

  // ---------------------------------------------------------------------
  // The preprocessor's renderer check.
  // ---------------------------------------------------------------------

  /** The preprocessor runs for the HTML renderer only. */
  function SupportsRenderer(renderer: string): (b: bool)
    ensures b <==> renderer == "html"
  {
    renderer == "html"
  }
}

=== FILE: wrappers.dfy ===
/** Failure-carrying values used across the model: an optional value, and the
    outcome of an operation that may abort. */
module Wrappers {

  datatype Option<+T> = None | Some(value: T)

  datatype Result<+R, +E> = Success(value: R) | Failure(error: E)
}
